=== FILE: README.md ===
# PhoneGap bridge core, modelled in Dafny

This project models the dispatch and readiness core of the PhoneGap
JavaScript bridge for Android (`src/android/phonegap.js`). Page scripts call
native capabilities through it and receive results asynchronously. The core
has three parts, each modelled as pure state transitions over immutable
records:

- **Channel** (`channel.dfy`, module `Channels`): the publish/subscribe
  primitive with a "fired" latch. It holds a handler table keyed by guid, a
  guid counter, `fired`, `fireArgs` and `enabled`. Script callbacks are
  abstract `Handler` tokens. A token records its identity, the guid stamped
  on it by an earlier subscribe, whether it is a function, and whether it
  returns something loosely equal to `false`. A `subscribeOnce` wrapper is
  the table entry `Once(h)`. It always counts as a function, it never
  reports failure (it returns nothing), and it removes its own slot when the
  channel fires.
- **Channel.join** (`join.dfy`, module `Join`): the countdown over a list of
  channels. Each channel is seen through its fired latch. `Scan` is the
  set-up loop exactly as written, and the readiness graph uses it. `ScanAll`
  is the corrected loop (see Findings).
- **Readiness graph** (`readiness.dfy`, module `Readiness`): the DOM-loaded,
  native-ready and device-ready channels, with the join wired at load time.
  A pre-set native flag fires the native-ready channel before the join is
  set up. Registering for `deviceready` becomes a once-subscription on the
  device-ready channel. `addConstructor` is modelled as a once-subscription
  on that channel too.
- **Command dispatcher and callback resolver** (`dispatcher.dfy`, module
  `Dispatcher`): the call table, keyed by class name plus counter; the
  watch table, keyed by a separate counter; and the resolving operations.
  Call ids are spelled with `Decimal.Digits`, a decimal number-to-string
  conversion proved to round-trip (`decimal.dfy`).
- `registry.dfy` (module `Registry`): `addExtension`, insert-if-absent.

The native executor (`CommandManager`) is not part of this model. Each
operation that calls it takes the executor's answer as a parameter `reply`
and returns the command it sent.

## Model

| member | source | states |
|---|---|---|
| Channels.New | src/android/phonegap.js:14-20 | a new channel has no handlers, its guid counter starts at 0, it has not fired, is enabled, and has recorded no arguments |
| Channels.Subscribe | src/android/phonegap.js:29-41 | a null handler changes nothing and returns no guid; otherwise the guid is the explicit one if truthy, else the handler's stamp if truthy, else the counter, which then advances by one (0 counts as absent); the stamped handler is stored under that guid and every other slot is unchanged |
| Channels.Unsubscribe | src/android/phonegap.js:66-70 | exactly the slot named by the guid, or by a function's stamp, is removed; every other slot keeps its handler; an unknown guid, an unstamped function or a non-function object changes nothing |
| Channels.Fire | src/android/phonegap.js:75-90 | a disabled channel returns true and changes nothing; an enabled one calls every slot holding a function, sets the latch, records the arguments, keeps only plain subscriptions, and returns true iff no handler returned false |
| Channels.FireLoop | src/android/phonegap.js:78-87 | the slot-by-slot loop, with once-wrappers deleting their own slot, yields exactly the result `Fire` describes, whatever order it visits the slots in |
| Channels.SubscribeOnce | src/android/phonegap.js:47-61 | on a fired channel the handler is replayed with the recorded arguments, null is returned and nothing is registered; otherwise one wrapper is stored under the counter value, which is returned, and the counter advances by one |
| Channels.ValidPreserved | src/android/phonegap.js:29-90 | subscribe, unsubscribe and fire keep "fired exactly when arguments are recorded" |
| Channels.SubscribeUnsubscribe | src/android/phonegap.js:36-69 | subscribing under a free guid and then unsubscribing that guid restores the handler table |
| Channels.UnsubscribeByHandlerOrGuid | src/android/phonegap.js:37-67 | unsubscribing by a subscribed function, now stamped, removes the same slot as unsubscribing by the returned guid |
| Channels.ResubscribeIdempotent | src/android/phonegap.js:36-39 | re-subscribing a stamped handler whose guid is not 0 reuses that guid and changes nothing |
| Channels.GuidZeroNotReused | src/android/phonegap.js:17-39 | the first handler on a fresh channel gets guid 0, which the logical-or chain treats as absent, so re-subscribing it stores it again under guid 1 |
| Channels.UnsubscribedNotInvoked | src/android/phonegap.js:66-84 | after an unsubscribe, by guid or by handler, the next fire does not call that slot |
| Channels.OnceFiresOnce | src/android/phonegap.js:50-59 | a once-subscription on an unfired channel is called by the next fire, is removed by it, and is not called by any later fire |
| Channels.OnceTwiceBothKept | src/android/phonegap.js:36-58 | two once-subscriptions in a row on an unfired channel take consecutive counter values as guids, and both wrappers stay stored |
| Channels.LateOnceReplays | src/android/phonegap.js:54-56 | a once-subscription after a fire replays that fire's arguments, returns null, and does not change which slots the next fire calls |
| Channels.SecondFireOnlyPlain | src/android/phonegap.js:50-84 | a second fire calls exactly the plain subscriptions holding functions; all once-wrappers were spent by the first |
| Join.Scan | src/android/phonegap.js:97-103 | the as-written loop subscribes to exactly the visited unfired channels; the countdown equals the unvisited count plus the pending count; the loop stops no later than the bound |
| Join.ScanAll | src/android/phonegap.js:97-103 | the corrected loop visits every channel and subscribes to exactly the unfired ones; the countdown equals their number |
| Join.Launch | src/android/phonegap.js:104 | the loop's result becomes the running join; `h` has run once exactly when the countdown is already zero; a loop result that fits the latches satisfies the join invariant |
| Join.Start | src/android/phonegap.js:96-105 | the as-written join leaves a state satisfying the join invariant |
| Join.StartCorrected | src/android/phonegap.js:96-105 | the corrected join visits every channel and is pending on exactly the unfired ones |
| Join.Step | src/android/phonegap.js:98-100 | a channel fire spends that channel's subscription only; the completion count never exceeds one; when it is one, every channel has fired |
| Join.Run | src/android/phonegap.js:98-100 | a sequence of fires keeps the join invariant, sets the latch of every channel that fires and never clears one, and runs `h` at most once |
| Join.RunKeeps | src/android/phonegap.js:98-102 | any sequence of fires keeps the join invariant and leaves pending exactly the subscribed channels that did not fire |
| Join.NeverEarly | src/android/phonegap.js:96-105 | after any sequence of fires, the completion has run at most once, and only if every listed channel has fired |
| Join.CompletesIffAllFired | src/android/phonegap.js:96-105 | when the set-up loop visited every channel, the completion has run iff every channel has fired, in any order of fires |
| Join.StuckForever | src/android/phonegap.js:101-104 | when the set-up loop stopped short, the completion never runs |
| Join.ScanVisitsAll | src/android/phonegap.js:101-102 | with no pre-fired channel before the last one, the loop reaches the end of the list |
| Join.ScanStopsShort | src/android/phonegap.js:101-102 | a pre-fired channel before the last one makes the loop stop early |
| Join.VisitsAllIff | src/android/phonegap.js:101-102 | the as-written loop visits every channel iff no channel before the last had already fired |
| Join.AllPreFiredNeverCompletes | src/android/phonegap.js:101-104 | two channels fired before `join` is called: the completion never runs, neither at once nor later |
| Join.PreFiredFirstNeverCompletes | src/android/phonegap.js:101-104 | a pre-fired channel listed before an unfired one: the second is never subscribed to, and the completion never runs even after it fires |
| Join.ShortListsComplete | src/android/phonegap.js:96-105 | an empty list, or one pre-fired channel, completes before `join` returns; one unfired channel is subscribed to and waits |
| Join.CorrectedCompletes | src/android/phonegap.js:96-105 | the corrected join completes iff every channel has fired, in any order; if all had fired already, it completes before returning |
| Readiness.Boot | src/android/phonegap.js:148-169 | after load the readiness invariant holds, the DOM channel has not fired, the countdown is 1 with the native flag and 2 without, and device-ready has not fired |
| Readiness.FireDevice | src/android/phonegap.js:167-168 | firing device-ready delivers to exactly the handlers it holds that are functions or once-wrappers, keeps every plain slot, spends the once-wrappers, sets the latch with no arguments, and counts one more device-ready fire; the sources and the countdown are untouched |
| Readiness.Countdown | src/android/phonegap.js:98-100 | the join closure lowers the countdown by one; device-ready fires exactly when the countdown was 1, and nothing else changes otherwise |
| Readiness.Signal | src/android/phonegap.js:98-102 | firing a source channel runs the join wrapper exactly when the channel is enabled and holds it; afterwards the channel has fired with those arguments and holds no wrapper |
| Readiness.DomLoaded | src/android/phonegap.js:173-175 | a DOM-loaded fire sets that latch, lowers the countdown by one iff the join wrapper was still there, fires device-ready iff that was the last source, and leaves the native channel alone |
| Readiness.NativeReady | src/android/phonegap.js:154-159 | a native-ready fire sets that latch, lowers the countdown by one iff the join wrapper was still there, fires device-ready iff that was the last source, and leaves the DOM channel alone |
| Readiness.SignalArmed | src/android/phonegap.js:98-102 | firing a source channel runs the join wrapper iff it had not fired before, and leaves it fired and disarmed |
| Readiness.DomLoadedKeeps | src/android/phonegap.js:165-175 | a DOM-loaded fire keeps the readiness invariant and leaves the native channel alone |
| Readiness.NativeReadyKeeps | src/android/phonegap.js:154-169 | a native-ready fire keeps the readiness invariant and leaves the DOM channel alone |
| Readiness.SubscribeKeepsArmed | src/android/phonegap.js:36-39 | a script's plain subscription on a source channel never displaces the join wrapper, which sits under guid 0 while it waits |
| Readiness.SubscribeOnceKeepsArmed | src/android/phonegap.js:47-59 | a script's once-subscription on a source channel keeps the wrapper as it was |
| Readiness.DomSubscriberIrrelevant | src/android/phonegap.js:148-175 | another subscriber on the DOM-loaded channel leaves the invariant and the DOM fire's effect on the countdown, on device-ready and on its deliveries unchanged |
| Readiness.InvIsJoinInv | src/android/phonegap.js:96-105 | the readiness invariant implies the join invariant of the world seen as the join over [DOM-loaded, native-ready] |
| Readiness.BootRefinesStart | src/android/phonegap.js:159-169 | script load leaves the world in the state `join` starts over the two latches |
| Readiness.DomLoadedRefinesStep | src/android/phonegap.js:98-100 | a DOM-loaded fire is step 0 of that join |
| Readiness.NativeReadyRefinesStep | src/android/phonegap.js:98-100 | a native-ready fire is step 1 of that join |
| Readiness.Listen | src/android/phonegap.js:187 | a device-ready registration replays the recorded arguments at once iff device-ready has fired, and then leaves the channel as it was; otherwise it stores one once-wrapper under the counter; every other slot, the sources and the countdown are untouched |
| Readiness.AddEventListener | src/android/phonegap.js:181-192 | a name that lower-cases to "deviceready" becomes a device-ready once-subscription; any other name is passed on with any handler, and nothing changes |
| Readiness.AddConstructor | src/android/phonegap.js:112-124 | a constructor is queued as a fresh, unstamped once-wrapper on device-ready; if device-ready has fired, the wrapper is called at once with the recorded arguments, and `func` itself is called with none; the sources and the countdown are untouched |
| Readiness.ListenKeeps | src/android/phonegap.js:187 | registering keeps the readiness invariant; the handler is delivered at once iff device-ready has fired |
| Readiness.DeviceReadyIffBoth | src/android/phonegap.js:161-169 | device-ready has fired iff both DOM-loaded and native-ready have, and it has fired at most once |
| Readiness.BootJoinAgreesWithCorrected | src/android/phonegap.js:165-169 | for [DOM-loaded, native-ready] with DOM unfired, the as-written join equals the corrected one |
| Readiness.LastSourceDelivers | src/android/phonegap.js:165-175 | when only the DOM-loaded signal is missing, the DOM fire delivers device-ready to a waiting listener and fires device-ready once |
| Readiness.DeviceReadyNameReserved | src/android/phonegap.js:182 | registering under "deviceReady" is the same as a device-ready once-subscription: the name comparison ignores case |
| Readiness.WaitThenDeliver | src/android/phonegap.js:165-187 | from any world missing only the DOM signal, a new listener waits, the DOM fire delivers to it and fires device-ready once, and a second DOM fire adds no further fire |
| Readiness.DeviceReadyScenario | src/android/phonegap.js:156-187 | native flag set, listener registered, then DOM loads: the listener is not reached before the DOM fire and is delivered by it; device-ready fires exactly once, and a second DOM fire changes nothing |
| Decimal.Digits | src/android/phonegap.js:222 | the counter's spelling is non-empty, all digits, and has no leading zero |
| Decimal.ParseDigits | src/android/phonegap.js:222 | reading the decimal spelling of a counter back gives the counter |
| Decimal.DigitsInjective | src/android/phonegap.js:222 | distinct counters have distinct spellings |
| Dispatcher.Init | src/android/phonegap.js:212-215 | both tables start empty and both counters start at 0 |
| Dispatcher.CallIdInjective | src/android/phonegap.js:222 | for one class name, equal call ids come from equal counters |
| Dispatcher.CrossClassCollision | src/android/phonegap.js:222 | ids are not unique across classes: "A" with 11 and "A1" with 1 both give "A11" |
| Dispatcher.ExecCall | src/android/phonegap.js:221-225 | the pair is stored under class name plus counter, the call counter advances by one, no other call entry changes, the watch side is untouched, the command carries that id, and the executor's answer is returned |
| Dispatcher.ExecSync | src/android/phonegap.js:242-244 | a synchronous command carries a null id and the executor's answer is returned |
| Dispatcher.ExecTwiceDistinct | src/android/phonegap.js:221-225 | two calls to the same class get distinct ids and both pairs stay stored |
| Dispatcher.ClearExec | src/android/phonegap.js:237-239 | exactly the given call id is removed |
| Dispatcher.CallbackSuccess | src/android/phonegap.js:227-230 | if the id has an entry whose success callback is a function, it is called with the payload and then only that entry is evicted; otherwise a TypeError is raised and nothing changes |
| Dispatcher.CallbackError | src/android/phonegap.js:232-235 | if the id has an entry whose failure callback is a function, it is called with the payload and then only that entry is evicted; otherwise a TypeError is raised and nothing changes |
| Dispatcher.ResolveOnce | src/android/phonegap.js:227-238 | once a call has been resolved either way, resolving its id again, either way, raises |
| Dispatcher.ResolveIndependently | src/android/phonegap.js:221-239 | succeeding one call and failing a second call to the same class, with function callbacks, runs exactly the matching callbacks; afterwards the call table is its earlier self minus the two ids |
| Dispatcher.ExecWatchCall | src/android/phonegap.js:249-257 | the id is drawn from the watch counter and is fresh; the pair is stored and the call side is untouched; the result is the id iff the executor answers "0", otherwise that answer is raised, with the entry still stored |
| Dispatcher.ClearWatch | src/android/phonegap.js:259-265 | only that watch entry is removed, before the "clearWatch" command with payload `{watchId}` and a null call id is sent; it returns nothing on "0", and any other answer is raised |
| Dispatcher.CallbackWatchSuccess | src/android/phonegap.js:267-269 | if the watch has an entry whose success callback is a function, it is called with the payload and the entry stays; otherwise a TypeError is raised |
| Dispatcher.CountersIndependent | src/android/phonegap.js:212-257 | a watch set up between two calls does not move the call counter, and the calls do not move the watch counter |
| Dispatcher.WatchLifecycle | src/android/phonegap.js:249-269 | a watch resolved three times calls its success callback once per payload, in order, and stays stored; after `clearWatch` a resolution raises |
| Registry.AddExtension | src/android/phonegap.js:126-130 | a name not yet taken gets the object; a taken name keeps its object; other names are unchanged |
| Registry.FirstWins | src/android/phonegap.js:126-130 | a second registration under a name leaves the first one in place |

## Findings

| source | as written | input that shows it | evidently intended | confidence | as-written member | corrected member |
|---|---|---|---|---|---|---|
| src/android/phonegap.js:101-104 | the loop bound `i` doubles as the countdown, so `i--` on a pre-fired channel also shortens the loop; with two or more channels and a pre-fired one before the last, later channels are never visited and `if (!i) h()` never fires | channels [fired, fired] (completion never runs); [fired, unfired] (second channel never subscribed, completion never runs after it fires) | every channel visited; completion once all have fired, immediately if all had already fired | high, by proof; not executed | Join.AllPreFiredNeverCompletes | Join.CorrectedCompletes |

The readiness graph keeps the as-written join, because that is what runs at
load. `Readiness.BootJoinAgreesWithCorrected` proves that for
[DOM-loaded, native-ready] the as-written join equals the corrected one:
the DOM-loaded channel has not fired when the join is set up, and only the
last channel may be pre-fired. `Join.VisitsAllIff` states exactly when the
as-written loop is safe. With fewer than two channels it always is:
`Join.ShortListsComplete` shows an empty list, or a single pre-fired
channel, completing at once.

Two more as-written behaviours are stated as lemmas rather than corrected:
- `Channels.GuidZeroNotReused`: the first guid a channel hands out is 0,
  and 0 is falsy, so re-subscribing that handler registers it twice.
- `Dispatcher.CrossClassCollision`: call ids are unique per class only.

## Left out

- Handlers never raise in this model. In the script, a handler that
  throws aborts `fire` before `fired` and `fireArgs` are set
  (src/android/phonegap.js:81, :85-86). A once-wrapper whose function
  throws keeps its slot (:51-52). A success or failure callback that throws
  leaves its call entry in place (:228-229, :233-234). None of these paths
  is modelled.
- Join.Step: the listed channels are taken to be distinct, since a fire
  is one list position. The script would subscribe the wrapper twice on a
  channel listed twice, and one fire of it would run both wrappers and
  lower the countdown twice. The only join in the script lists two distinct
  channels. The step also assumes that every listed channel stays enabled
  and that no other call touches the slot holding join's wrapper. In the
  script, three calls can remove or replace that slot: `unsubscribe` of its
  guid, a `subscribe` with that explicit guid, and a `subscribe` of a
  function stamped with that guid by another channel. After any of them,
  the channel's fire no longer runs the wrapper, and join never completes.
  For the readiness graph, `Readiness.SubscribeKeepsArmed` and
  `Readiness.SubscribeOnceKeepsArmed` prove that no subscription reaches the
  wrapper's slot (guid 0). Unsubscribing guid 0 is not covered; see the
  next line.
- Readiness.Inv: a script that unsubscribes guid 0 from a source channel
  removes the join wrapper, and device-ready then never fires. This is
  outside the invariant. Other subscribers to the source channels are
  within it (`Readiness.DomSubscriberIrrelevant`).
- Channels.Subscribe: guids are natural numbers. In the script the table
  keys are property names, so an explicit guid may be any truthy value, and
  1 and "1" name the same slot.
- Channels.Subscribe: the context argument (`PhoneGap.close` binding the
  receiver) is not modelled. Binding changes only `this` inside the call.
  The fresh closure has no stamp, so guid resolution is the same.
- `PhoneGap.close` and the `this` receiver passed by `fire` and `apply`
  are not modelled: handlers are tokens.
- Channels.Fire: `invoked` is a set of guids, so the `for..in` visiting
  order is not modelled. Handlers are tokens with no effect on the channel
  other than a once-wrapper removing its own slot. Mutating the table from
  inside a handler is therefore not modelled.
- The channel `type` label is not modelled: nothing in the core reads it.
- Channels.SubscribeOnce: requires a callable handler. The source calls
  `f.apply` on it, which raises a TypeError for a non-function. On a fired
  channel that happens at once. On an unfired channel the registration
  itself succeeds and stores the wrapper; the TypeError comes only when the
  next fire runs the wrapper. The requires excludes that successful
  registration as well.
- Dispatcher.CallbackSuccess, Dispatcher.CallbackError and
  Dispatcher.CallbackWatchSuccess: the TypeError raised for a missing
  entry, or for a callback that is not a function, is the single string
  `TypeError`; the script's error object and message are not modelled.
- Dispatcher.ExecCall, Dispatcher.ExecWatchCall and Dispatcher.ClearWatch:
  `CommandManager.exec` and `execWatch` are the native executor. Its answer
  is a parameter, and the sent command is returned for inspection.
- `JSON.stringify` of the arguments is not modelled: arguments are opaque
  (`Body.Encoded`). The `{watchId}` object is its own constructor.
- Decimal.Digits: spells every counter in plain decimal. JavaScript would
  switch to exponent notation from 10^21, and its counters stop increasing
  exactly past 2^53; both are out of reach in practice.
- Readiness.AddEventListener: the `capture` flag is dropped, because the
  script forwards only the name and the handler (line 190). It also
  lower-cases ASCII letters only, where
  `toLowerCase` covers Unicode. The desktop branch (`window.onload`, an
  immediate device-ready fire) is not modelled: `PhoneGap.desktop` is
  false (line 9) unless another script sets it, and this file never does. The host's own
  `addEventListener`, to which other names are passed, is outside the model.
- Readiness.AddConstructor: the try/catch that reports a failing
  constructor through `debug.log` or `alert` is host I/O and is not
  modelled.
- The host's `DOMContentLoaded` listener (lines 173-175) is modelled only as
  the `Readiness.DomLoaded` event.
- The commented-out `Element.addEventListener` patch is not modelled: it
  is not live code.
- Registry.AddExtension: a name counts as taken when it is a key of the
  namespace. The script tests `typeof phonegap[name] == 'undefined'`
  instead, so a name whose stored value is `undefined` is overwritten, and
  a name inherited from the prototype chain (such as "toString") is
  refused. Neither case is modelled.
- `addPlugin` is not modelled: it writes into the host's `window` object.
- The `PG.app` wrappers (`src/android/app.js`) are not modelled: they only
  forward to `exec`.

=== FILE: channel.dfy ===
/** The publish/subscribe channel with a "fired" latch
    (`PhoneGap.Channel` and its prototype methods). */
module Channels {
  import opened Values

  /** Keys of the handler table. */
  type Guid = nat

  /** What a handler-table slot holds: a handler stored by `subscribe`, or the
      self-removing wrapper `subscribeOnce` builds around a handler. The
      wrapper is always a function and returns nothing, so it never counts
      as a failure when the channel fires. */
  datatype Entry = Plain(handler: Handler) | Once(handler: Handler)

  datatype Channel = Channel(
    handlers: map<Guid, Entry>,
    counter: nat,             // the channel's own `guid` field
    fired: bool,
    fireArgs: Option<Args>,
    enabled: bool)

  /** Arguments are recorded exactly when the channel has fired. */
  predicate Valid(c: Channel) {
    c.fired <==> c.fireArgs.Some?
  }

  /** A freshly constructed channel. */
  function New(): (c: Channel)
    ensures Valid(c) && c.enabled && !c.fired
    ensures c.handlers == map[] && c.counter == 0
  {
    Channel(map[], 0, false, None, true)
  }

  /** JavaScript truthiness of an optional guid: absent and 0 are both false. */
  predicate Truthy(g: Option<Guid>) {
    g.Some? && g.value != 0
  }

  // ---------------------------------------------------------------- subscribe

  datatype Subscription = Subscription(channel: Channel, guid: Option<Guid>, handler: Option<Handler>)

  /** `subscribe(f, c, g)`: `f == None` is a null handler. The guid is the
      explicit one if truthy, else the handler's stamp if truthy, else the
      channel counter (which then advances). The handler is stamped with the
      guid and stored under it. */
  function Subscribe(c: Channel, f: Option<Handler>, g: Option<Guid>): (r: Subscription)
    ensures f.None? ==> r.channel == c && r.guid.None? && r.handler.None?
    ensures f.Some? ==> r.guid.Some? && r.handler == Some(f.value.(stamp := r.guid))
    ensures f.Some? ==> forall k :: k in r.channel.handlers <==> k in c.handlers || Some(k) == r.guid
    ensures f.Some? ==> r.channel.handlers[r.guid.value] == Plain(r.handler.value)
    ensures forall k :: k in c.handlers && Some(k) != r.guid ==> r.channel.handlers[k] == c.handlers[k]
    ensures f.Some? && Truthy(g) ==> r.guid == g && r.channel.counter == c.counter
    ensures f.Some? && !Truthy(g) && Truthy(f.value.stamp) ==>
              r.guid == f.value.stamp && r.channel.counter == c.counter
    ensures f.Some? && !Truthy(g) && !Truthy(f.value.stamp) ==>
              r.guid == Some(c.counter) && r.channel.counter == c.counter + 1
    ensures r.channel.fired == c.fired && r.channel.fireArgs == c.fireArgs
    ensures r.channel.enabled == c.enabled
  {
    match f
    case None => Subscription(c, None, None)
    case Some(h) =>
      var (guid, counter) :=
        if Truthy(g) then (g.value, c.counter)
        else if Truthy(h.stamp) then (h.stamp.value, c.counter)
        else (c.counter, c.counter + 1);
      var stamped := h.(stamp := Some(guid));
      Subscription(c.(handlers := c.handlers[guid := Plain(stamped)], counter := counter),
                   Some(guid), Some(stamped))
  }

  // -------------------------------------------------------------- unsubscribe

  /** `unsubscribe` accepts a guid or a function carrying a stamped guid. */
  datatype Target = ByGuid(guid: Guid) | ByHandler(handler: Handler)

  /** The table key a target names. Only a function is swapped for its
      stamp; an unstamped function, or a non-function object (which the
      table never holds under its own name), names none. */
  function Key(t: Target): Option<Guid> {
    match t
    case ByGuid(g) => Some(g)
    case ByHandler(h) => if h.callable then h.stamp else None
  }

  /** `unsubscribe(g)`: deletes the one key the target names, if present. */
  function Unsubscribe(c: Channel, t: Target): (r: Channel)
    ensures forall k :: k in r.handlers <==> k in c.handlers && Some(k) != Key(t)
    ensures forall k :: k in r.handlers ==> r.handlers[k] == c.handlers[k]
    ensures Key(t).None? || Key(t).value !in c.handlers ==> r == c
    ensures r.counter == c.counter && r.fired == c.fired && r.fireArgs == c.fireArgs
    ensures r.enabled == c.enabled
  {
    match Key(t)
    case None => c
    case Some(g) => c.(handlers := c.handlers - {g})
  }

  // --------------------------------------------------------------------- fire

  /** Whether firing calls the slot: the `instanceof Function` test. */
  predicate Invocable(e: Entry) {
    e.Once? || e.handler.callable
  }

  /** Whether the slot's call reports failure (returns something `== false`). */
  predicate Fails(e: Entry) {
    e.Plain? && e.handler.callable && e.handler.returnsFalse
  }

  /** What one `fire` produced: the channel afterwards, the returned flag,
      and the guids whose slots were called. */
  datatype Firing = Firing(channel: Channel, ok: bool, invoked: set<Guid>)

  /** `fire(args)`: a disabled channel reports success and does nothing.
      Otherwise every invocable slot present at the start is called once,
      each once-wrapper removes its own slot, the latch is set, the
      arguments recorded, and success is reported iff no handler failed. */
  function Fire(c: Channel, args: Args): (r: Firing)
    ensures !c.enabled ==> r == Firing(c, true, {})
    ensures c.enabled ==> r.channel.fired && r.channel.fireArgs == Some(args)
    ensures c.enabled ==> (r.ok <==> forall g :: g in c.handlers ==> !Fails(c.handlers[g]))
    ensures forall g :: g in r.invoked <==> c.enabled && g in c.handlers && Invocable(c.handlers[g])
    ensures forall g :: g in r.channel.handlers <==> g in c.handlers && (!c.enabled || c.handlers[g].Plain?)
    ensures forall g :: g in r.channel.handlers ==> r.channel.handlers[g] == c.handlers[g]
    ensures r.channel.counter == c.counter && r.channel.enabled == c.enabled
  {
    if !c.enabled then Firing(c, true, {})
    else
      var fail := exists g | g in c.handlers :: Fails(c.handlers[g]);
      var kept := map g | g in c.handlers && c.handlers[g].Plain? :: c.handlers[g];
      var invoked := set g | g in c.handlers && Invocable(c.handlers[g]);
      Firing(c.(handlers := kept, fired := true, fireArgs := Some(args)), !fail, invoked)
  }

  /** The `for..in` loop of `fire`, slot by slot in an arbitrary order: it
      computes exactly what `Fire` describes. */
  method FireLoop(c: Channel, args: Args) returns (r: Firing)
    ensures r == Fire(c, args)
  {
    if !c.enabled {
      return Firing(c, true, {});
    }
    var live := c.handlers;
    var fail := false;
    var invoked: set<Guid> := {};
    var todo := c.handlers.Keys;
    while todo != {}
      invariant todo <= c.handlers.Keys
      invariant forall g :: g in live <==> g in c.handlers && (g in todo || c.handlers[g].Plain?)
      invariant forall g :: g in live ==> live[g] == c.handlers[g]
      invariant fail <==> exists g :: g in c.handlers && g !in todo && Fails(c.handlers[g])
      invariant forall g :: g in invoked <==> g in c.handlers && g !in todo && Invocable(c.handlers[g])
      decreases todo
    {
      var g :| g in todo;
      var e := c.handlers[g];
      if Invocable(e) {
        invoked := invoked + {g};
        fail := fail || Fails(e);
        if e.Once? {
          live := live - {g};
        }
      }
      todo := todo - {g};
    }
    var spec := Fire(c, args);
    assert live == spec.channel.handlers;
    assert invoked == spec.invoked;
    r := Firing(c.(handlers := live, fired := true, fireArgs := Some(args)), !fail, invoked);
  }

  // ----------------------------------------------------------- subscribeOnce

  /** What `subscribeOnce` produced: the channel afterwards, the guid it
      returned (null when it replayed), and the arguments the handler was
      called with at once (when it replayed). */
  datatype OnceSubscription = OnceSubscription(channel: Channel, guid: Option<Guid>, replayed: Option<Args>)

  /** `subscribeOnce(f)`: on a fired channel, call `f` now with the recorded
      arguments and register nothing; otherwise register a wrapper under the
      next counter value (a fresh wrapper has no stamp and no explicit guid). */
  function SubscribeOnce(c: Channel, f: Handler): (r: OnceSubscription)
    requires Valid(c)
    requires f.callable
    ensures c.fired ==> r.channel == c && r.guid.None? && r.replayed == c.fireArgs && r.replayed.Some?
    ensures !c.fired ==> r.replayed.None? && r.guid == Some(c.counter)
    ensures !c.fired ==> forall k :: k in r.channel.handlers <==> k in c.handlers || k == c.counter
    ensures !c.fired ==> r.channel.handlers[c.counter] == Once(f)
    ensures !c.fired ==> r.channel.counter == c.counter + 1
    ensures forall k :: k in c.handlers && Some(k) != r.guid ==> r.channel.handlers[k] == c.handlers[k]
    ensures Valid(r.channel) && r.channel.fired == c.fired && r.channel.enabled == c.enabled
  {
    if c.fired then OnceSubscription(c, None, c.fireArgs)
    else
      OnceSubscription(c.(handlers := c.handlers[c.counter := Once(f)], counter := c.counter + 1),
                       Some(c.counter), None)
  }

  // ------------------------------------------------------------------ lemmas

  /** Every operation keeps "fired exactly when arguments are recorded". */
  lemma ValidPreserved(c: Channel, f: Option<Handler>, g: Option<Guid>, t: Target, args: Args)
    requires Valid(c)
    ensures Valid(Subscribe(c, f, g).channel)
    ensures Valid(Unsubscribe(c, t))
    ensures Valid(Fire(c, args).channel)
  {
  }

  /** Subscribing under a guid that was free and then unsubscribing that
      guid restores the handler table. */
  lemma SubscribeUnsubscribe(c: Channel, f: Handler, g: Option<Guid>)
    requires Subscribe(c, Some(f), g).guid.value !in c.handlers
    ensures Unsubscribe(Subscribe(c, Some(f), g).channel, ByGuid(Subscribe(c, Some(f), g).guid.value)).handlers
            == c.handlers
  {
  }

  /** Unsubscribing by the stamped handler `subscribe` returned removes the
      same slot as unsubscribing by the returned guid. */
  lemma UnsubscribeByHandlerOrGuid(c: Channel, f: Handler, g: Option<Guid>)
    requires f.callable
    ensures var r := Subscribe(c, Some(f), g);
            Unsubscribe(r.channel, ByHandler(r.handler.value)) == Unsubscribe(r.channel, ByGuid(r.guid.value))
  {
  }

  /** Re-subscribing a stamped handler reuses its guid and changes nothing,
      provided the guid is not 0. */
  lemma ResubscribeIdempotent(c: Channel, f: Handler)
    requires Subscribe(c, Some(f), None).guid != Some(0)
    ensures var r := Subscribe(c, Some(f), None);
            Subscribe(r.channel, r.handler, None) == r
  {
  }

  /** The first handler subscribed to a fresh channel gets guid 0, which the
      `||` chain treats as absent, so subscribing the same (stamped) handler
      again stores it a second time under guid 1. */
  lemma GuidZeroNotReused(f: Handler)
    requires f.stamp.None?
    ensures var r := Subscribe(New(), Some(f), None);
            var r2 := Subscribe(r.channel, r.handler, None);
            r.guid == Some(0) && r2.guid == Some(1)
            && 0 in r2.channel.handlers && 1 in r2.channel.handlers
  {
  }

  /** A handler removed by `unsubscribe` is not called by a later `fire`,
      whichever way the removal named it. */
  lemma UnsubscribedNotInvoked(c: Channel, t: Target, args: Args)
    requires Key(t).Some?
    ensures Key(t).value !in Fire(Unsubscribe(c, t), args).invoked
  {
  }

  /** A once-subscription on an unfired, enabled channel is called by the
      next `fire`, is gone afterwards, and is not called by any later `fire`. */
  lemma OnceFiresOnce(c: Channel, f: Handler, a1: Args, a2: Args)
    requires Valid(c) && f.callable && !c.fired && c.enabled
    ensures var s := SubscribeOnce(c, f);
            var r1 := Fire(s.channel, a1);
            var r2 := Fire(r1.channel, a2);
            s.guid.value in r1.invoked && s.guid.value !in r1.channel.handlers
            && s.guid.value !in r2.invoked
  {
  }

  /** Two once-subscriptions in a row on an unfired channel take
      consecutive guids, and the second leaves the first in place. */
  lemma OnceTwiceBothKept(c: Channel, f1: Handler, f2: Handler)
    requires Valid(c) && f1.callable && f2.callable && !c.fired
    ensures var s1 := SubscribeOnce(c, f1);
            var s2 := SubscribeOnce(s1.channel, f2);
            s1.guid == Some(c.counter) && s2.guid == Some(c.counter + 1)
            && s2.channel.handlers[c.counter] == Once(f1) && s2.channel.handlers[c.counter + 1] == Once(f2)
  {
  }

  /** A once-subscription made after the channel fired replays the recorded
      arguments and registers nothing: the next `fire` calls exactly the
      slots it would have called anyway. */
  lemma LateOnceReplays(c: Channel, a0: Args, f: Handler, a1: Args)
    requires Valid(c) && c.enabled && f.callable
    ensures var fired := Fire(c, a0).channel;
            var s := SubscribeOnce(fired, f);
            s.replayed == Some(a0) && s.guid.None?
            && Fire(s.channel, a1).invoked == Fire(fired, a1).invoked
  {
  }

  /** Firing an enabled channel a second time calls only the plain
      subscriptions: every once-wrapper was spent by the first fire. */
  lemma SecondFireOnlyPlain(c: Channel, a1: Args, a2: Args)
    requires c.enabled
    ensures var r1 := Fire(c, a1);
            var r2 := Fire(r1.channel, a2);
            forall g :: g in r2.invoked <==> g in c.handlers && c.handlers[g].Plain? && c.handlers[g].handler.callable
  {
  }
}

=== FILE: decimal.dfy ===
/** The decimal text of a non-negative integer, as produced when the
    dispatcher appends its counter to a class name (`clazz + callbackId`). */
module Decimal {

  predicate IsDigit(ch: char) {
    '0' <= ch <= '9'
  }

  function DigitChar(d: nat): (ch: char)
    requires d < 10
    ensures IsDigit(ch) && ch as int - '0' as int == d
  {
    ['0', '1', '2', '3', '4', '5', '6', '7', '8', '9'][d]
  }

  function DigitValue(ch: char): nat
    requires IsDigit(ch)
  {
    ch as int - '0' as int
  }

  /** The shortest decimal spelling of `n`: no sign, no leading zeros. */
  function Digits(n: nat): (s: string)
    ensures |s| >= 1 && (forall k :: 0 <= k < |s| ==> IsDigit(s[k]))
    ensures |s| > 1 ==> s[0] != '0'
  {
    if n < 10 then [DigitChar(n)] else Digits(n / 10) + [DigitChar(n % 10)]
  }

  /** Reads a string of digits back as a number. */
  function Parse(s: string): nat
    requires forall k :: 0 <= k < |s| ==> IsDigit(s[k])
  {
    if s == [] then 0 else Parse(s[..|s| - 1]) * 10 + DigitValue(s[|s| - 1])
  }

  /** Reading back the spelling of `n` gives `n`. */
  lemma {:induction false} ParseDigits(n: nat)
    ensures Parse(Digits(n)) == n
  {
    var s := Digits(n);
    if n < 10 {
      assert s[..0] == [];
    } else {
      ParseDigits(n / 10);
      assert s[..|s| - 1] == Digits(n / 10);
    }
  }

  /** Distinct numbers have distinct spellings. */
  lemma DigitsInjective(m: nat, n: nat)
    requires Digits(m) == Digits(n)
    ensures m == n
  {
    ParseDigits(m);
    ParseDigits(n);
  }
}

=== FILE: dispatcher.dfy ===
/** The command dispatcher and callback resolver: `PhoneGap.exec`,
    `execSync`, `execWatch`, `clearWatch`, `callbackSuccess`,
    `callbackError`, `callbackWatchSuccess` and `clearExec`.

    The native executor (`CommandManager`) is not part of the model: every
    operation that calls it takes the string it answers as a parameter
    `reply`, and reports the command it sent. */
module Dispatcher {
  import opened Values
  import Decimal

  /** The `{success, fail}` record stored per call or watch; a `None`
      callback is a `null` one. */
  datatype Pair = Pair(success: Option<Handler>, fail: Option<Handler>)

  /** The argument text handed to the executor: the serialised arguments of
      a call, or the `{watchId: n}` object `clearWatch` sends. */
  datatype Body = Encoded(args: Args) | WatchIdObject(watchId: nat)

  /** A command sent to the executor: `exec` carries a call id, or null for
      synchronous commands; `execWatch` carries a watch id. */
  datatype Command =
    | Exec(clazz: string, action: string, callId: Option<string>, body: Body)
    | ExecWatch(clazz: string, action: string, watchId: nat, body: Body)

  datatype State = State(
    calls: map<string, Pair>,   // PhoneGap.callbacks
    watches: map<nat, Pair>,    // PhoneGap.callbacksWatch
    callbackId: nat,
    watchId: nat)

  /** Every watch id in the table was drawn from the watch counter. */
  ghost predicate Valid(s: State) {
    forall w :: w in s.watches ==> w < s.watchId
  }

  /** The tables and counters as they stand when the script is loaded. */
  function Init(): (s: State)
    ensures Valid(s) && s.calls == map[] && s.watches == map[]
    ensures s.callbackId == 0 && s.watchId == 0
  {
    State(map[], map[], 0, 0)
  }

  /** The correlation id of the `n`-th call: the class name followed by the
      decimal spelling of the counter. */
  function CallId(clazz: string, n: nat): string {
    clazz + Decimal.Digits(n)
  }

  /** A call to one class never reuses an id that class got earlier. */
  lemma CallIdInjective(clazz: string, m: nat, n: nat)
    requires CallId(clazz, m) == CallId(clazz, n)
    ensures m == n
  {
    assert Decimal.Digits(m) == CallId(clazz, m)[|clazz|..];
    assert Decimal.Digits(n) == CallId(clazz, n)[|clazz|..];
    Decimal.DigitsInjective(m, n);
  }

  /** Ids of different classes can collide: "A" with counter 11 and "A1"
      with counter 1 both give "A11". */
  lemma CrossClassCollision()
    ensures CallId("A", 11) == CallId("A1", 1)
  {
  }

  // -------------------------------------------------------------------- exec

  /** What `exec` did: the new state, the command sent and what it returned. */
  datatype Sent = Sent(state: State, command: Command, returned: string)

  /** `exec(success, fail, clazz, action, args)`: store the pair under a fresh
      id for the class, advance the call counter, send the command carrying
      that id, and return the executor's answer. */
  function ExecCall(s: State, success: Option<Handler>, fail: Option<Handler>,
                    clazz: string, action: string, args: Args, reply: string): (r: Sent)
    ensures r.command == Exec(clazz, action, Some(CallId(clazz, s.callbackId)), Encoded(args))
    ensures var id := r.command.callId.value;
            forall k :: k in r.state.calls <==> k in s.calls || k == id
    ensures var id := r.command.callId.value;
            r.state.calls[id] == Pair(success, fail)
            && forall k :: k in s.calls && k != id ==> r.state.calls[k] == s.calls[k]
    ensures r.state.callbackId == s.callbackId + 1
    ensures r.state.watches == s.watches && r.state.watchId == s.watchId
    ensures r.returned == reply
    ensures Valid(s) ==> Valid(r.state)
  {
    var id := CallId(clazz, s.callbackId);
    Sent(s.(calls := s.calls[id := Pair(success, fail)], callbackId := s.callbackId + 1),
         Exec(clazz, action, Some(id), Encoded(args)), reply)
  }

  /** `execSync`: send a command with a null id, store nothing, and return the
      executor's answer. */
  function ExecSync(clazz: string, action: string, args: Args, reply: string): (r: (Command, string))
    ensures r.0.Exec? && r.0.callId.None? && r.0.clazz == clazz && r.0.action == action
    ensures r.0.body == Encoded(args) && r.1 == reply
  {
    (Exec(clazz, action, None, Encoded(args)), reply)
  }

  /** Two calls to the same class in a row get distinct ids, and both pairs
      are stored afterwards. */
  lemma ExecTwiceDistinct(s: State, p1: Pair, p2: Pair, clazz: string, a1: string, a2: string,
                          x1: Args, x2: Args, y1: string, y2: string)
    ensures var r1 := ExecCall(s, p1.success, p1.fail, clazz, a1, x1, y1);
            var r2 := ExecCall(r1.state, p2.success, p2.fail, clazz, a2, x2, y2);
            var id1 := r1.command.callId.value;
            var id2 := r2.command.callId.value;
            id1 != id2 && r2.state.calls[id1] == p1 && r2.state.calls[id2] == p2
  {
    var r1 := ExecCall(s, p1.success, p1.fail, clazz, a1, x1, y1);
    var r2 := ExecCall(r1.state, p2.success, p2.fail, clazz, a2, x2, y2);
    if r1.command.callId == r2.command.callId {
      CallIdInjective(clazz, s.callbackId, s.callbackId + 1);
    }
  }

  // --------------------------------------------------------------- resolving

  /** One callback invocation with its payload. */
  datatype Invocation = Invocation(callback: Handler, payload: Args)

  datatype Resolved = Resolved(state: State, call: Invocation)

  /** Whether a stored callback can be called: present and a function. */
  predicate Callable(h: Option<Handler>) {
    h.Some? && h.value.callable
  }

  /** What the script raises when it calls through an entry that is missing
      or holds no function. */
  const TypeError: string := "TypeError"

  /** `clearExec(id)`: delete the call entry. */
  function ClearExec(s: State, id: string): (r: State)
    ensures forall k :: k in r.calls <==> k in s.calls && k != id
    ensures forall k :: k in r.calls ==> r.calls[k] == s.calls[k]
    ensures r.watches == s.watches && r.callbackId == s.callbackId && r.watchId == s.watchId
  {
    s.(calls := s.calls - {id})
  }

  /** `callbackSuccess(id, args)`: call the stored success callback, then
      evict the entry. When the id has no entry, or its success callback is
      null or not a function, the call raises a TypeError before `clearExec`
      runs, so the state stays as it was. */
  function CallbackSuccess(s: State, id: string, payload: Args): (r: Result<Resolved>)
    ensures r.Ok? <==> id in s.calls && Callable(s.calls[id].success)
    ensures r.Throw? ==> r.error == TypeError
    ensures r.Ok? ==> r.value.call == Invocation(s.calls[id].success.value, payload)
                      && id !in r.value.state.calls && r.value.state == ClearExec(s, id)
    ensures r.Ok? && Valid(s) ==> Valid(r.value.state)
  {
    if id in s.calls && Callable(s.calls[id].success) then
      Ok(Resolved(ClearExec(s, id), Invocation(s.calls[id].success.value, payload)))
    else Throw(TypeError)
  }

  /** `callbackError(id, args)`: call the stored failure callback, then evict
      the entry; it raises in the same cases as `CallbackSuccess`, for the
      failure callback. */
  function CallbackError(s: State, id: string, payload: Args): (r: Result<Resolved>)
    ensures r.Ok? <==> id in s.calls && Callable(s.calls[id].fail)
    ensures r.Throw? ==> r.error == TypeError
    ensures r.Ok? ==> r.value.call == Invocation(s.calls[id].fail.value, payload)
                      && id !in r.value.state.calls && r.value.state == ClearExec(s, id)
    ensures r.Ok? && Valid(s) ==> Valid(r.value.state)
  {
    if id in s.calls && Callable(s.calls[id].fail) then
      Ok(Resolved(ClearExec(s, id), Invocation(s.calls[id].fail.value, payload)))
    else Throw(TypeError)
  }

  /** A call is resolved at most once: after either callback has run, the
      entry is gone and resolving the id again, either way, raises. */
  lemma ResolveOnce(s: State, id: string, p1: Args, p2: Args)
    requires CallbackSuccess(s, id, p1).Ok? || CallbackError(s, id, p1).Ok?
    ensures var after := if CallbackSuccess(s, id, p1).Ok? then CallbackSuccess(s, id, p1).value.state
                         else CallbackError(s, id, p1).value.state;
            CallbackSuccess(after, id, p2).Throw? && CallbackError(after, id, p2).Throw?
  {
  }

  /** Two calls to one class resolve independently: succeeding the first and
      failing the second calls exactly the matching callbacks, and leaves the
      call table as it was before either call, less the two ids. */
  lemma ResolveIndependently(s: State, ok1: Handler, f1: Handler, ok2: Handler, f2: Handler,
                             clazz: string, a1: string, a2: string, x1: Args, x2: Args,
                             y1: string, y2: string, p1: Args, p2: Args)
    requires ok1.callable && f2.callable
    ensures var r1 := ExecCall(s, Some(ok1), Some(f1), clazz, a1, x1, y1);
            var r2 := ExecCall(r1.state, Some(ok2), Some(f2), clazz, a2, x2, y2);
            var id1 := r1.command.callId.value;
            var id2 := r2.command.callId.value;
            var v1 := CallbackSuccess(r2.state, id1, p1);
            v1.Ok? && var v2 := CallbackError(v1.value.state, id2, p2);
            v2.Ok? && v1.value.call == Invocation(ok1, p1) && v2.value.call == Invocation(f2, p2)
            && v2.value.state.calls == s.calls - {id1, id2}
  {
    var r1 := ExecCall(s, Some(ok1), Some(f1), clazz, a1, x1, y1);
    var r2 := ExecCall(r1.state, Some(ok2), Some(f2), clazz, a2, x2, y2);
    ExecTwiceDistinct(s, Pair(Some(ok1), Some(f1)), Pair(Some(ok2), Some(f2)), clazz, a1, a2, x1, x2, y1, y2);
    var id1 := r1.command.callId.value;
    var id2 := r2.command.callId.value;
    var v1 := CallbackSuccess(r2.state, id1, p1);
    var v2 := CallbackError(v1.value.state, id2, p2);
    assert v2.value.state.calls == s.calls - {id1, id2};
  }

  // ----------------------------------------------------------------- watches

  /** What a watch operation did: the new state, the command sent, and its
      outcome (`execWatch` returns the watch id, `clearWatch` nothing). */
  datatype WatchSent<T> = WatchSent(state: State, command: Command, outcome: Result<T>)

  /** `execWatch(success, fail, clazz, action, args)`: draw an id from the
      watch counter, store the pair under it, and send the watch command.
      An answer other than "0" is raised; the entry stays stored either way. */
  function ExecWatchCall(s: State, success: Option<Handler>, fail: Option<Handler>,
                         clazz: string, action: string, args: Args, reply: string): (r: WatchSent<nat>)
    ensures r.command == ExecWatch(clazz, action, s.watchId, Encoded(args))
    ensures r.state.watches == s.watches[s.watchId := Pair(success, fail)]
    ensures r.state.watchId == s.watchId + 1
    ensures r.state.calls == s.calls && r.state.callbackId == s.callbackId
    ensures reply == "0" <==> r.outcome == Ok(s.watchId)
    ensures reply != "0" <==> r.outcome == Throw(reply)
    ensures Valid(s) ==> Valid(r.state) && s.watchId !in s.watches
  {
    var w := s.watchId;
    var state := s.(watches := s.watches[w := Pair(success, fail)], watchId := w + 1);
    WatchSent(state, ExecWatch(clazz, action, w, Encoded(args)),
              if reply != "0" then Throw(reply) else Ok(w))
  }

  /** `clearWatch(clazz, id)`: delete the watch entry first, then send the
      `clearWatch` command through the plain path with a null call id. An
      answer other than "0" is raised; the entry is gone either way. */
  function ClearWatch(s: State, clazz: string, id: nat, reply: string): (r: WatchSent<()>)
    ensures r.command == Exec(clazz, "clearWatch", None, WatchIdObject(id))
    ensures forall w :: w in r.state.watches <==> w in s.watches && w != id
    ensures forall w :: w in r.state.watches ==> r.state.watches[w] == s.watches[w]
    ensures r.state.calls == s.calls && r.state.callbackId == s.callbackId && r.state.watchId == s.watchId
    ensures reply == "0" <==> r.outcome == Ok(())
    ensures reply != "0" <==> r.outcome == Throw(reply)
    ensures Valid(s) ==> Valid(r.state)
  {
    var state := s.(watches := s.watches - {id});
    WatchSent(state, Exec(clazz, "clearWatch", None, WatchIdObject(id)),
              if reply != "0" then Throw(reply) else Ok(()))
  }

  /** `callbackWatchSuccess(id, args)`: call the watch's success callback and
      keep the entry. An absent entry, or a success callback that is null or
      not a function, raises a TypeError, as for `CallbackSuccess`. */
  function CallbackWatchSuccess(s: State, id: nat, payload: Args): (r: Result<Resolved>)
    ensures r.Ok? <==> id in s.watches && Callable(s.watches[id].success)
    ensures r.Throw? ==> r.error == TypeError
    ensures r.Ok? ==> r.value.call == Invocation(s.watches[id].success.value, payload)
                      && r.value.state == s
  {
    if id in s.watches && Callable(s.watches[id].success) then
      Ok(Resolved(s, Invocation(s.watches[id].success.value, payload)))
    else Throw(TypeError)
  }

  /** The two counters are independent: a call does not move the watch
      counter and a watch does not move the call counter, so a watch set up
      between two calls leaves their ids consecutive. */
  lemma CountersIndependent(s: State, p: Pair, q: Pair, clazz: string, action: string,
                            x: Args, y1: string, y2: string, y3: string)
    ensures var r1 := ExecCall(s, p.success, p.fail, clazz, action, x, y1);
            var w := ExecWatchCall(r1.state, q.success, q.fail, clazz, action, x, y2);
            var r2 := ExecCall(w.state, p.success, p.fail, clazz, action, x, y3);
            r1.command.callId == Some(CallId(clazz, s.callbackId))
            && r2.command.callId == Some(CallId(clazz, s.callbackId + 1))
            && w.command.watchId == s.watchId
  {
  }

  /** A watch resolved three times calls its success callback once per
      payload, in order, and is still stored; after `clearWatch` it is gone,
      so a late resolution has no entry to reach. */
  lemma WatchLifecycle(s: State, ok: Handler, fail: Option<Handler>, clazz: string, action: string,
                       x: Args, y: string, p1: Args, p2: Args, p3: Args, z: string)
    requires Valid(s) && ok.callable
    ensures var w := ExecWatchCall(s, Some(ok), fail, clazz, action, x, y);
            var id := w.command.watchId;
            var v1 := CallbackWatchSuccess(w.state, id, p1);
            v1.Ok? && var v2 := CallbackWatchSuccess(v1.value.state, id, p2);
            v2.Ok? && var v3 := CallbackWatchSuccess(v2.value.state, id, p3);
            v3.Ok?
            && [v1.value.call, v2.value.call, v3.value.call]
               == [Invocation(ok, p1), Invocation(ok, p2), Invocation(ok, p3)]
            && id in v3.value.state.watches
            && CallbackWatchSuccess(ClearWatch(v3.value.state, clazz, id, z).state, id, p1).Throw?
  {
  }
}

=== FILE: join.dfy ===
/** `PhoneGap.Channel.join(h, c)`: a countdown over a list of channels that
    calls `h` once they have all fired.

    The channels are seen here only through their "fired" latches
    (`fired[k]` for the k-th listed channel); the once-subscription join
    places on channel k is the index k in `pending`, and it is spent the
    first time channel k fires. `Scan` is the set-up loop exactly as
    written, where a pre-fired channel shrinks the loop bound `i` that also
    serves as the countdown. `ScanAll` is the loop as evidently intended,
    visiting every channel.

    The listed channels are taken to be distinct and to stay enabled, and a
    pending subscription leaves only when its own channel fires: nothing
    else unsubscribes or overwrites the wrapper's slot. */
module Join {

  /** What the set-up loop leaves behind: the countdown `i`, the channels it
      subscribed to, and how many list positions it visited (`j` at exit). */
  datatype Setup = Setup(count: int, pending: set<nat>, visited: nat)

  /** The state of one join over time. `completions` counts calls of `h`. */
  datatype State = State(fired: seq<bool>, count: int, pending: set<nat>, visited: nat, completions: nat)

  /** The loop `for (j=0; j<i; j++) (!c[j].fired ? subscribe : i--)` from
      position `j` with bound `i`. */
  function Scan(fired: seq<bool>, j: nat, i: int, pending: set<nat>): (r: Setup)
    requires j <= |fired| && i <= |fired|
    requires forall k: nat :: k in pending <==> k < j && !fired[k]
    requires i == |fired| - j + |pending|
    ensures j <= r.visited <= |fired| && r.count <= r.visited
    ensures r.visited <= (if j <= i then i else j)
    ensures forall k: nat :: k in r.pending <==> k < r.visited && !fired[k]
    ensures r.count == |fired| - r.visited + |r.pending|
    decreases i - j
  {
    if j < i then
      if !fired[j] then Scan(fired, j + 1, i, pending + {j})
      else Scan(fired, j + 1, i - 1, pending)
    else Setup(i, pending, j)
  }

  /** The loop visiting every listed channel, as evidently intended: the
      countdown shrinks on a pre-fired channel but the bound does not. */
  function ScanAll(fired: seq<bool>, j: nat, count: int, pending: set<nat>): (r: Setup)
    requires j <= |fired|
    requires forall k: nat :: k in pending <==> k < j && !fired[k]
    requires count == |fired| - j + |pending|
    ensures r.visited == |fired|
    ensures forall k: nat :: k in r.pending <==> k < |fired| && !fired[k]
    ensures r.count == |r.pending|
    decreases |fired| - j
  {
    if j < |fired| then
      if !fired[j] then ScanAll(fired, j + 1, count, pending + {j})
      else ScanAll(fired, j + 1, count - 1, pending)
    else Setup(count, pending, j)
  }

  /** The invariant of a running join: the pending subscriptions are exactly
      the visited channels that have not fired yet, the countdown exceeds
      their number by the count of unvisited channels, and `h` has been
      called once exactly when the countdown is zero. */
  ghost predicate Inv(s: State) {
    && s.visited <= |s.fired|
    && (forall k: nat :: k in s.pending <==> k < s.visited && !s.fired[k])
    && s.count == |s.fired| - s.visited + |s.pending|
    && s.completions == (if s.count == 0 then 1 else 0)
  }

  /** What the set-up loop guarantees on exit, whichever bound it ran to:
      the pending subscriptions are the visited unfired channels, and the
      countdown adds the unvisited ones to them. */
  ghost predicate Fits(fired: seq<bool>, r: Setup) {
    && r.visited <= |fired|
    && (forall k: nat :: k in r.pending <==> k < r.visited && !fired[k])
    && r.count == |fired| - r.visited + |r.pending|
  }

  /** The end of `join`: the loop's result becomes the running state, and
      the trailing `if (!i) h()` completes at once exactly when the countdown
      is already zero. A loop result that fits the latches starts a join
      that keeps the invariant. */
  function Launch(fired: seq<bool>, r: Setup): (s: State)
    ensures s.fired == fired && s.count == r.count && s.pending == r.pending && s.visited == r.visited
    ensures s.completions <= 1 && (s.completions == 1 <==> r.count == 0)
    ensures Fits(fired, r) ==> Inv(s)
  {
    State(fired, r.count, r.pending, r.visited, if r.count == 0 then 1 else 0)
  }

  /** `join` as written, called when the channels' latches are `fired`;
      the trailing `if (!i) h()` completes at once when the countdown is 0. */
  function Start(fired: seq<bool>): (s: State)
    ensures Inv(s) && s.fired == fired
  {
    Launch(fired, Scan(fired, 0, |fired|, {}))
  }

  /** The corrected `join`: every channel is visited. */
  function StartCorrected(fired: seq<bool>): (s: State)
    ensures Inv(s) && s.fired == fired && s.visited == |fired|
    ensures forall k: nat :: k in s.pending <==> k < |fired| && !fired[k]
  {
    Launch(fired, ScanAll(fired, 0, |fired|, {}))
  }

  /** Channel `k` fires. Its once-subscription, if still there, runs the
      closure `if (!(--i)) h()` and is removed. */
  function Step(s: State, k: nat): (r: State)
    requires Inv(s) && k < |s.fired|
    ensures Inv(r) && r.fired == s.fired[k := true] && r.visited == s.visited
    ensures r.pending == s.pending - {k}
    ensures r.completions <= 1 && s.completions <= r.completions
    ensures r.completions == 1 ==> forall m :: 0 <= m < |r.fired| ==> r.fired[m]
  {
    if k in s.pending then
      var c := s.count - 1;
      State(s.fired[k := true], c, s.pending - {k}, s.visited, s.completions + (if c == 0 then 1 else 0))
    else
      s.(fired := s.fired[k := true])
  }

  /** A sequence of channel fires, in the given order. Latches only ever
      get set: every channel fired before or during the run has fired after
      it, the invariant holds throughout, and `h` runs at most once. */
  function Run(s: State, ks: seq<nat>): (r: State)
    requires Inv(s) && forall n :: 0 <= n < |ks| ==> ks[n] < |s.fired|
    ensures Inv(r) && r.visited == s.visited && |r.fired| == |s.fired|
    ensures forall m :: 0 <= m < |s.fired| && s.fired[m] ==> r.fired[m]
    ensures forall n :: 0 <= n < |ks| ==> r.fired[ks[n]]
    ensures s.completions <= r.completions <= 1
    decreases |ks|
  {
    if ks == [] then s else Run(Step(s, ks[0]), ks[1..])
  }

  /** The channels that fire in `ks`. */
  function Hits(ks: seq<nat>): set<nat> {
    if ks == [] then {} else {ks[0]} + Hits(ks[1..])
  }

  /** Running a join keeps its invariant; the subscriptions left are those
      whose channel did not fire. */
  lemma {:induction false} RunKeeps(s: State, ks: seq<nat>)
    requires Inv(s) && forall n :: 0 <= n < |ks| ==> ks[n] < |s.fired|
    ensures var r := Run(s, ks);
            Inv(r) && r.visited == s.visited && |r.fired| == |s.fired|
            && r.pending == s.pending - Hits(ks)
            && s.completions <= r.completions
    decreases |ks|
  {
    if ks != [] {
      RunKeeps(Step(s, ks[0]), ks[1..]);
    }
  }

  /** Never early, at most once: whenever `h` has run, every listed channel
      has fired, and it has run no more than once. */
  lemma NeverEarly(fired: seq<bool>, ks: seq<nat>)
    requires forall n :: 0 <= n < |ks| ==> ks[n] < |fired|
    ensures var r := Run(Start(fired), ks);
            r.completions <= 1
            && (r.completions == 1 ==> forall m :: 0 <= m < |r.fired| ==> r.fired[m])
  {
    RunKeeps(Start(fired), ks);
  }

  /** When the set-up loop visited every channel, `h` has run exactly when
      every channel has fired, in whatever order the fires came. */
  lemma {:induction false} CompletesIffAllFired(s: State, ks: seq<nat>)
    requires Inv(s) && s.visited == |s.fired|
    requires forall n :: 0 <= n < |ks| ==> ks[n] < |s.fired|
    ensures var r := Run(s, ks);
            r.completions == 1 <==> forall m :: 0 <= m < |r.fired| ==> r.fired[m]
  {
    RunKeeps(s, ks);
    var r := Run(s, ks);
    if forall m :: 0 <= m < |r.fired| ==> r.fired[m] {
      assert r.pending == {};
    }
  }

  /** When the set-up loop stopped short, `h` never runs, however the
      channels fire afterwards. */
  lemma {:induction false} StuckForever(s: State, ks: seq<nat>)
    requires Inv(s) && s.visited < |s.fired|
    requires forall n :: 0 <= n < |ks| ==> ks[n] < |s.fired|
    ensures Run(s, ks).completions == 0
  {
    RunKeeps(s, ks);
  }

  /** With no pre-fired channel among the first n-1 and a countdown still at
      the full length, the loop reaches the end of the list. */
  lemma {:induction false} ScanVisitsAll(fired: seq<bool>, j: nat, pending: set<nat>)
    requires j <= |fired|
    requires forall k: nat :: k in pending <==> k < j && !fired[k]
    requires |fired| == |fired| - j + |pending|
    requires forall k :: j <= k < |fired| - 1 ==> !fired[k]
    ensures Scan(fired, j, |fired|, pending).visited == |fired|
    decreases |fired| - j
  {
    if j < |fired| {
      if !fired[j] {
        ScanVisitsAll(fired, j + 1, pending + {j});
      } else {
        assert j == |fired| - 1;
      }
    }
  }

  /** Meeting a pre-fired channel before the last lowers the bound below
      the list length, so the loop cannot reach the end. */
  lemma ScanHitsPreFired(fired: seq<bool>, j: nat, i: int, pending: set<nat>)
    requires j < i <= |fired|
    requires forall k: nat :: k in pending <==> k < j && !fired[k]
    requires i == |fired| - j + |pending|
    requires j < |fired| - 1 && fired[j]
    ensures Scan(fired, j, i, pending).visited < |fired|
  {
    var r := Scan(fired, j + 1, i - 1, pending);
    assert r.visited <= |fired| - 1;
  }

  /** A pre-fired channel at position `p` below the last shrinks the bound so
      that the loop stops before the end of the list. */
  lemma {:induction false} ScanStopsShort(fired: seq<bool>, j: nat, i: int, pending: set<nat>, p: nat)
    requires j <= |fired| && i <= |fired|
    requires forall k: nat :: k in pending <==> k < j && !fired[k]
    requires i == |fired| - j + |pending|
    requires j <= p < |fired| - 1 && fired[p]
    ensures Scan(fired, j, i, pending).visited < |fired|
    decreases i - j
  {
    if j < i {
      if j == p {
        ScanHitsPreFired(fired, j, i, pending);
      } else if !fired[j] {
        ScanStopsShort(fired, j + 1, i, pending + {j}, p);
      } else {
        ScanStopsShort(fired, j + 1, i - 1, pending, p);
      }
    }
  }

  /** The join as written visits every channel exactly when none of the
      channels before the last one had already fired. */
  lemma VisitsAllIff(fired: seq<bool>)
    ensures Start(fired).visited == |fired| <==> forall k :: 0 <= k < |fired| - 1 ==> !fired[k]
  {
    if forall k :: 0 <= k < |fired| - 1 ==> !fired[k] {
      ScanVisitsAll(fired, 0, {});
    } else {
      var p :| 0 <= p < |fired| - 1 && fired[p];
      ScanStopsShort(fired, 0, |fired|, {}, p);
    }
  }

  /** Counterexample: two channels that have both fired before `join` is
      called; the as-written loop stops after the first and never calls `h`. */
  lemma AllPreFiredNeverCompletes(ks: seq<nat>)
    requires forall n :: 0 <= n < |ks| ==> ks[n] < 2
    ensures Start([true, true]).completions == 0
    ensures Run(Start([true, true]), ks).completions == 0
  {
    VisitsAllIff([true, true]);
    StuckForever(Start([true, true]), ks);
  }

  /** Counterexample: a pre-fired channel listed before an unfired one; the
      unfired one is never subscribed to, so `h` never runs even after it
      fires. */
  lemma PreFiredFirstNeverCompletes()
    ensures Start([true, false]).pending == {}
    ensures Run(Start([true, false]), [1]).completions == 0
    ensures Run(Start([true, false]), [1]).fired == [true, true]
  {
  }

  /** With fewer than two channels the as-written loop has nothing to cut
      short: an empty list, or a single channel that has already fired,
      completes before `join` returns, and a single unfired one waits. */
  lemma ShortListsComplete()
    ensures Start([]).completions == 1
    ensures Start([true]).completions == 1
    ensures Start([false]).completions == 0 && Start([false]).pending == {0}
  {
  }

  /** The corrected join calls `h` exactly when every channel has fired, for
      any pre-fired latches and any order of later fires; if all had fired
      already it completes before returning. */
  lemma CorrectedCompletes(fired: seq<bool>, ks: seq<nat>)
    requires forall n :: 0 <= n < |ks| ==> ks[n] < |fired|
    ensures var r := Run(StartCorrected(fired), ks);
            r.completions == 1 <==> forall m :: 0 <= m < |r.fired| ==> r.fired[m]
    ensures (forall m :: 0 <= m < |fired| ==> fired[m]) ==> StartCorrected(fired).completions == 1
  {
    CompletesIffAllFired(StartCorrected(fired), ks);
    if forall m :: 0 <= m < |fired| ==> fired[m] {
      assert StartCorrected(fired).pending == {};
    }
  }
}

=== FILE: readiness.dfy ===
/** The readiness graph (phonegap.js lines 148-169 and the `deviceready`
    interception): the DOM-loaded and native-ready channels joined into the
    device-ready channel, with the as-written `join` deciding which of the
    two get a once-subscription of the join closure. */
module Readiness {
  import opened Values
  import opened Channels
  import Join

  /** The closure `f` that `join` subscribes once on each unfired channel.
      It is local to `join`, so no script holds it or can subscribe it. */
  const JoinClosure: Handler := Handler(0, None, true, false)

  /** The three channels, the join countdown `i`, how many times the
      device-ready channel has been fired, and the handlers it delivered to
      (by firing, or by replaying to a late once-subscriber). */
  datatype World = World(dom: Channel, native: Channel, device: Channel,
                         countdown: int, deviceFires: nat, delivered: set<Handler>)

  /** A source channel holds the join wrapper under guid 0, the first guid
      it handed out, exactly while it has not fired, and holds it nowhere
      else. Other subscribers may sit beside it in any other slot. */
  ghost predicate JoinArmed(c: Channel) {
    && Valid(c) && c.enabled
    && (forall g :: g in c.handlers && c.handlers[g] == Once(JoinClosure) ==> g == 0)
    && (!c.fired <==> 0 in c.handlers && c.handlers[0] == Once(JoinClosure))
    && (!c.fired ==> c.counter >= 1)
  }

  function Unfired(c: Channel): nat {
    if c.fired then 0 else 1
  }

  /** The readiness invariant: the countdown is the number of source
      channels still to fire, and the device-ready channel has fired, once,
      exactly when the countdown has reached zero. */
  ghost predicate Inv(w: World) {
    && JoinArmed(w.dom) && JoinArmed(w.native)
    && Valid(w.device) && w.device.enabled
    && w.countdown == Unfired(w.dom) + Unfired(w.native)
    && (w.device.fired <==> w.countdown == 0)
    && w.deviceFires == (if w.countdown == 0 then 1 else 0)
  }

  /** Whether a source channel still holds the join wrapper that its next
      fire will run. */
  predicate Armed(c: Channel) {
    c.enabled && exists g :: g in c.handlers && c.handlers[g] == Once(JoinClosure)
  }

  /** `PhoneGap.onDeviceReady.fire()`, the join's completion `h`: every
      handler the device-ready channel calls is delivered to, its
      once-subscriptions are spent, and the latch is set with no arguments. */
  function FireDevice(w: World): (r: World)
    ensures r.dom == w.dom && r.native == w.native && r.countdown == w.countdown
    ensures r.deviceFires == w.deviceFires + 1
    ensures w.device.enabled ==> r.device.fired && r.device.fireArgs == Some([])
                                 && forall g :: g in r.device.handlers ==> r.device.handlers[g].Plain?
    ensures forall g :: g in w.device.handlers && w.device.enabled && Invocable(w.device.handlers[g])
                        ==> w.device.handlers[g].handler in r.delivered
    ensures r.delivered == w.delivered + (set g | g in w.device.handlers && w.device.enabled
                                                 && Invocable(w.device.handlers[g]) :: w.device.handlers[g].handler)
    ensures forall g :: g in w.device.handlers && w.device.handlers[g].Plain?
                        ==> g in r.device.handlers && r.device.handlers[g] == w.device.handlers[g]
    ensures !w.device.enabled ==> r.device == w.device
  {
    var r := Fire(w.device, []);
    var got := set g | g in r.invoked :: w.device.handlers[g].handler;
    w.(device := r.channel, deviceFires := w.deviceFires + 1, delivered := w.delivered + got)
  }

  /** The join closure: `if (!(--i)) h()`. The countdown drops by one, and
      device-ready fires exactly when it reaches zero. */
  function Countdown(w: World): (r: World)
    ensures r.dom == w.dom && r.native == w.native && r.countdown == w.countdown - 1
    ensures w.countdown == 1 ==> r.deviceFires == w.deviceFires + 1
                                 && (w.device.enabled ==> r.device.fired)
    ensures w.countdown != 1 ==> r.device == w.device && r.deviceFires == w.deviceFires
                                 && r.delivered == w.delivered
  {
    var i := w.countdown - 1;
    var w1 := w.(countdown := i);
    if i == 0 then FireDevice(w1) else w1
  }

  /** Script load: the three channels are built, the native-ready channel is
      fired at once when the native flag was already set, and `join` runs
      over [DOM-loaded, native-ready]. */
  function Boot(nativeFlag: bool): (w: World)
    ensures Inv(w) && !w.dom.fired && w.native.fired == nativeFlag
    ensures w.countdown == (if nativeFlag then 1 else 2)
    ensures !w.device.fired && w.deviceFires == 0 && w.delivered == {}
  {
    var dom := New();
    var native := if nativeFlag then Fire(New(), []).channel else New();
    var js := Join.Start([dom.fired, native.fired]);
    assert js.visited == 2 by {
      Join.VisitsAllIff([dom.fired, native.fired]);
    }
    var dom1 := if 0 in js.pending then SubscribeOnce(dom, JoinClosure).channel else dom;
    var native1 := if 1 in js.pending then SubscribeOnce(native, JoinClosure).channel else native;
    var w := World(dom1, native1, New(), js.count, 0, {});
    if js.completions == 1 then FireDevice(w) else w
  }

  /** Fires a source channel and reports whether the join wrapper ran: it
      ran exactly when the channel was armed, and no wrapper survives. */
  function Signal(c: Channel, args: Args): (r: (Channel, bool))
    ensures r.1 <==> Armed(c)
    ensures c.enabled ==> r.0.fired && r.0.fireArgs == Some(args) && !Armed(r.0)
    ensures !c.enabled ==> r.0 == c
  {
    var r := Fire(c, args);
    (r.channel, exists g | g in r.invoked :: c.handlers[g] == Once(JoinClosure))
  }

  /** `onDOMContentLoaded.fire(args)`: the DOM-loaded channel fires; when it
      held the join wrapper the countdown drops, and device-ready fires if
      that was the last source. The native-ready channel is untouched. */
  function DomLoaded(w: World, args: Args): (r: World)
    ensures r.native == w.native
    ensures w.dom.enabled ==> r.dom.fired && r.dom.fireArgs == Some(args)
    ensures r.countdown == w.countdown - (if Armed(w.dom) then 1 else 0)
    ensures r.deviceFires == w.deviceFires + (if Armed(w.dom) && w.countdown == 1 then 1 else 0)
  {
    var (dom, ran) := Signal(w.dom, args);
    var w1 := w.(dom := dom);
    if ran then Countdown(w1) else w1
  }

  /** `onNativeReady.fire(args)`, the native side's signal, symmetric to
      `DomLoaded`. */
  function NativeReady(w: World, args: Args): (r: World)
    ensures r.dom == w.dom
    ensures w.native.enabled ==> r.native.fired && r.native.fireArgs == Some(args)
    ensures r.countdown == w.countdown - (if Armed(w.native) then 1 else 0)
    ensures r.deviceFires == w.deviceFires + (if Armed(w.native) && w.countdown == 1 then 1 else 0)
  {
    var (native, ran) := Signal(w.native, args);
    var w1 := w.(native := native);
    if ran then Countdown(w1) else w1
  }

  /** Firing an armed source channel runs the join wrapper and disarms it;
      firing a fired one runs nothing. */
  lemma SignalArmed(c: Channel, args: Args)
    requires JoinArmed(c)
    ensures JoinArmed(Signal(c, args).0) && Signal(c, args).0.fired
    ensures Signal(c, args).1 <==> !c.fired
  {
  }

  /** Scripts may subscribe to a source channel too. A plain subscription
      never displaces the wrapper: an explicit guid or a stamp is used only
      when truthy, so never 0, and the counter is past 0 while the wrapper
      waits. */
  lemma SubscribeKeepsArmed(c: Channel, f: Option<Handler>, g: Option<Guid>)
    requires JoinArmed(c)
    ensures JoinArmed(Subscribe(c, f, g).channel) && Subscribe(c, f, g).channel.fired == c.fired
  {
  }

  /** A script's once-subscription on a source channel keeps it armed as it
      was; the join closure itself is never a script's handler. */
  lemma SubscribeOnceKeepsArmed(c: Channel, h: Handler)
    requires JoinArmed(c) && h.callable && h != JoinClosure
    ensures JoinArmed(SubscribeOnce(c, h).channel) && SubscribeOnce(c, h).channel.fired == c.fired
  {
  }

  /** Another subscriber on the DOM-loaded channel changes nothing about
      device-ready: the world keeps the invariant, and the DOM fire leaves
      the countdown, the device-ready channel and its deliveries as they
      would have been without it. */
  lemma DomSubscriberIrrelevant(w: World, f: Option<Handler>, g: Option<Guid>, a: Args)
    requires Inv(w)
    ensures var w2 := w.(dom := Subscribe(w.dom, f, g).channel);
            Inv(w2) && DomLoaded(w2, a).countdown == DomLoaded(w, a).countdown
            && DomLoaded(w2, a).device == DomLoaded(w, a).device
            && DomLoaded(w2, a).deviceFires == DomLoaded(w, a).deviceFires
            && DomLoaded(w2, a).delivered == DomLoaded(w, a).delivered
  {
    SubscribeKeepsArmed(w.dom, f, g);
  }

  /** The device-ready channel fires only from the countdown reaching zero,
      and then not before: an invariant-preserving step. */
  lemma DomLoadedKeeps(w: World, args: Args)
    requires Inv(w)
    ensures Inv(DomLoaded(w, args)) && DomLoaded(w, args).dom.fired
    ensures DomLoaded(w, args).native == w.native
  {
  }

  lemma NativeReadyKeeps(w: World, args: Args)
    requires Inv(w)
    ensures Inv(NativeReady(w, args)) && NativeReady(w, args).native.fired
    ensures NativeReady(w, args).dom == w.dom
  {
  }

  /** What registering for an event did: the world afterwards, the
      arguments a late device-ready listener was called with at once, and
      whether the call was passed on to the host's own registration. */
  datatype Registration = Registration(world: World, replayed: Option<Args>, forwarded: bool)

  /** A once-subscription on the device-ready channel. A late listener is
      called at once with the recorded arguments and nothing is stored; an
      early one is stored under the channel's counter. */
  function Listen(w: World, h: Handler): (r: Registration)
    requires Valid(w.device) && h.callable
    ensures !r.forwarded && (r.replayed.Some? <==> w.device.fired)
    ensures r.world.dom == w.dom && r.world.native == w.native && r.world.countdown == w.countdown
    ensures r.world.deviceFires == w.deviceFires
    ensures w.device.fired ==> r.replayed == w.device.fireArgs && r.world.device == w.device
                               && r.world.delivered == w.delivered + {h}
    ensures !w.device.fired ==> w.device.counter in r.world.device.handlers
                                && r.world.device.handlers[w.device.counter] == Once(h)
                                && r.world.delivered == w.delivered
    ensures forall g :: g in w.device.handlers && (w.device.fired || g != w.device.counter)
                        ==> g in r.world.device.handlers && r.world.device.handlers[g] == w.device.handlers[g]
  {
    var s := SubscribeOnce(w.device, h);
    var got := if s.replayed.Some? then {h} else {};
    Registration(w.(device := s.channel, delivered := w.delivered + got), s.replayed, false)
  }

  function LowerChar(ch: char): char {
    if 'A' <= ch <= 'Z' then (ch as int + 32) as char else ch
  }

  /** ASCII lower-casing of an event name. */
  function Lower(s: string): (r: string)
    ensures |r| == |s| && forall k :: 0 <= k < |s| ==> r[k] == LowerChar(s[k])
  {
    if s == [] then [] else [LowerChar(s[0])] + Lower(s[1..])
  }

  /** `document.addEventListener(evt, handler)`: a name that lower-cases to
      "deviceready" becomes a once-subscription on the device-ready channel;
      any other name is passed on and the world is left alone. */
  function AddEventListener(w: World, evt: string, h: Handler): (r: Registration)
    requires Valid(w.device) && (Lower(evt) == "deviceready" ==> h.callable)
    ensures r.forwarded <==> Lower(evt) != "deviceready"
    ensures r.forwarded ==> r.world == w && r.replayed.None?
    ensures !r.forwarded ==> r == Listen(w, h)
  {
    if Lower(evt) == "deviceready" then Listen(w, h)
    else Registration(w, None, true)
  }

  /** The function `addConstructor` wraps around `func`: a fresh, unstamped
      function that returns nothing, identified with `func`. A replay hands
      the recorded arguments to the wrapper, which calls `func` with none. */
  function ConstructorWrapper(func: Handler): Handler {
    Handler(func.id, None, true, false)
  }

  /** `addConstructor(func)`: a once-subscription on the device-ready
      channel of a wrapper that calls `func` and returns nothing, so `func`
      need not be a function for the registration itself to succeed. */
  function AddConstructor(w: World, func: Handler): (r: Registration)
    requires Valid(w.device)
    ensures !r.forwarded && (r.replayed.Some? <==> w.device.fired)
    ensures w.device.fired ==> r.replayed == w.device.fireArgs && r.world.device == w.device
    ensures !w.device.fired ==> w.device.counter in r.world.device.handlers
                                && r.world.device.handlers[w.device.counter] == Once(Handler(func.id, None, true, false))
    ensures r.world.dom == w.dom && r.world.native == w.native && r.world.countdown == w.countdown
  {
    Listen(w, ConstructorWrapper(func))
  }

  /** The world seen as the state of the join over [DOM-loaded,
      native-ready]: the latches, the countdown, the channels still holding
      the join wrapper, both channels visited, and the completions. */
  function JoinView(w: World): Join.State {
    Join.State([w.dom.fired, w.native.fired], w.countdown,
               (if Armed(w.dom) then {0} else {}) + (if Armed(w.native) then {1} else {}),
               2, w.deviceFires)
  }

  /** The readiness invariant is the join invariant, read off the world. */
  lemma InvIsJoinInv(w: World)
    requires Inv(w)
    ensures Join.Inv(JoinView(w))
  {
  }

  /** Script load starts the join exactly as `join` over the two latches
      does. */
  lemma BootRefinesStart(nativeFlag: bool)
    ensures JoinView(Boot(nativeFlag)) == Join.Start([false, nativeFlag])
  {
  }

  /** Firing the DOM-loaded channel is step 0 of the join. */
  lemma DomLoadedRefinesStep(w: World, args: Args)
    requires Inv(w)
    ensures Join.Inv(JoinView(w))
    ensures JoinView(DomLoaded(w, args)) == Join.Step(JoinView(w), 0)
  {
    InvIsJoinInv(w);
    DomLoadedKeeps(w, args);
    assert JoinView(DomLoaded(w, args)).pending == Join.Step(JoinView(w), 0).pending;
  }

  /** Firing the native-ready channel is step 1 of the join. */
  lemma NativeReadyRefinesStep(w: World, args: Args)
    requires Inv(w)
    ensures Join.Inv(JoinView(w))
    ensures JoinView(NativeReady(w, args)) == Join.Step(JoinView(w), 1)
  {
    InvIsJoinInv(w);
    NativeReadyKeeps(w, args);
    assert JoinView(NativeReady(w, args)).pending == Join.Step(JoinView(w), 1).pending;
  }

  /** Registering a listener keeps the readiness invariant; on a device that
      has already fired it is called at once with the recorded arguments,
      otherwise it waits. */
  lemma ListenKeeps(w: World, h: Handler)
    requires Inv(w) && h.callable
    ensures Inv(Listen(w, h).world)
    ensures Listen(w, h).replayed.Some? <==> w.device.fired
    ensures h in Listen(w, h).world.delivered <==> h in w.delivered || w.device.fired
  {
  }

  /** In every world that keeps the invariant, the device-ready channel has
      fired exactly when both sources have, and it has fired at most once. */
  lemma DeviceReadyIffBoth(w: World)
    requires Inv(w)
    ensures w.device.fired <==> w.dom.fired && w.native.fired
    ensures w.deviceFires == 1 <==> w.dom.fired && w.native.fired
    ensures w.deviceFires <= 1
  {
  }

  /** For the two-channel list, the as-written join agrees with the
      corrected one whenever the DOM-loaded channel has not fired, which is
      always the case at script load. */
  lemma BootJoinAgreesWithCorrected(nativeFlag: bool)
    ensures Join.Start([false, nativeFlag]) == Join.StartCorrected([false, nativeFlag])
  {
    Join.VisitsAllIff([false, nativeFlag]);
    var a := Join.Start([false, nativeFlag]);
    var c := Join.StartCorrected([false, nativeFlag]);
    assert a.pending == c.pending;
  }

  /** The last source firing delivers device-ready to every handler that
      was waiting on it. */
  lemma LastSourceDelivers(w: World, a: Args, h: Handler)
    requires Inv(w) && !w.dom.fired && w.native.fired && h.callable
    ensures h in DomLoaded(Listen(w, h).world, a).delivered
    ensures DomLoaded(Listen(w, h).world, a).deviceFires == 1
  {
  }

  /** The mixed-case name "deviceReady" is the reserved one. */
  lemma DeviceReadyNameReserved(w: World, h: Handler)
    requires Valid(w.device) && h.callable
    ensures AddEventListener(w, "deviceReady", h) == Listen(w, h)
  {
  }

  /** From any world where only the DOM-loaded signal is missing: a listener
      registered now waits, the DOM fire delivers to it and fires
      device-ready once, and a second DOM fire does not fire it again. */
  lemma WaitThenDeliver(w: World, h: Handler, a1: Args, a2: Args)
    requires Inv(w) && !w.dom.fired && w.native.fired && h.callable && h !in w.delivered
    ensures var reg := Listen(w, h);
            var w2 := DomLoaded(reg.world, a1);
            reg.replayed.None? && h !in reg.world.delivered && reg.world.deviceFires == 0
            && h in w2.delivered && w2.deviceFires == 1 && DomLoaded(w2, a2).deviceFires == 1
  {
  }

  /** End to end: the native flag is set before load, a handler registers
      for "deviceReady", and DOM content loads. The handler is not reached
      before the DOM fire and is delivered by it; the device-ready channel
      fires exactly once, and a second DOM fire changes nothing. */
  lemma DeviceReadyScenario(h: Handler, a1: Args, a2: Args)
    requires h.callable
    ensures var reg := AddEventListener(Boot(true), "deviceReady", h);
            var w2 := DomLoaded(reg.world, a1);
            !reg.forwarded && reg.replayed.None? && h !in reg.world.delivered
            && reg.world.deviceFires == 0 && h in w2.delivered && w2.deviceFires == 1
            && DomLoaded(w2, a2).deviceFires == 1
  {
    var w0 := Boot(true);
    DeviceReadyNameReserved(w0, h);
    WaitThenDeliver(w0, h, a1, a2);
  }
}

=== FILE: registry.dfy ===
/** `PhoneGap.addExtension(name, obj)`: the extension namespace, where the
    first object registered under a name stays. */
module Registry {

  /** Registers `obj` under `name` unless the name is already taken. */
  function AddExtension<T>(ns: map<string, T>, name: string, obj: T): (r: map<string, T>)
    ensures name in r && (name in ns ==> r[name] == ns[name]) && (name !in ns ==> r[name] == obj)
    ensures r.Keys == ns.Keys + {name}
    ensures forall k :: k in ns && k != name ==> r[k] == ns[k]
  {
    if name in ns then ns else ns[name := obj]
  }

  /** The first registration under a name wins: a second one with any
      object leaves the namespace as the first left it. */
  lemma FirstWins<T>(ns: map<string, T>, name: string, a: T, b: T)
    ensures AddExtension(AddExtension(ns, name, a), name, b) == AddExtension(ns, name, a)
  {
  }
}

=== FILE: values.dfy ===
/** Values shared by every part of the bridge model: optional values, opaque
    argument lists, and host callbacks as abstract tokens. */
module Values {

  /** An optional value; `None` stands for the script's `null`/`undefined`. */
  datatype Option<+T> = None | Some(value: T)

  /** The outcome of a call that may raise: `Throw` carries the raised value. */
  datatype Result<+T> = Ok(value: T) | Throw(error: string)

  /** An argument list passed through the bridge. Its contents are never
      inspected by the core, so each argument is an opaque number. */
  type Args = seq<nat>

  /** A script callback, seen only through what the core can observe of it:
      an identity, the `observer_guid` stamped on it by an earlier subscribe
      (if any), whether it is a function at all, and whether calling it
      returns a value loosely equal to `false`. */
  datatype Handler = Handler(id: nat, stamp: Option<nat>, callable: bool, returnsFalse: bool)
}
